=== FILE: README.md ===
# CommonBusEncoders, modelled in Dafny

A model of the Arduino library that reads many rotary quadrature encoders over
three shared buses (A, B and the switch bus S), each encoder being connected to
the buses only while its own common pin is driven LOW. The model covers the
whole of `CommonBusEncoders.cpp` apart from its pin and clock calls:

- `debouncer.dfy` — the 32-bit shift-register debouncer `debounce`, over a
  finite sequence of reads, with the register as a `bv32`.
- `quadrature.dfy` — the decoders `readEncoder4` (four steps per detent) and
  `readEncoder2` (two steps per detent), and their behaviour along the
  quadrature cycle drawn in the source's comment table.
- `modeswitch.dfy` — `switchPressed`: mode cycling on a press, with C's `%`;
  the wait for the release is a separate method over a finite sequence of
  debounced levels, and the reads below take every press as released.
- `multiplexer.dfy` — `readEncoder` (select, decode, switch, release) and
  `getIndex` (rotation or press to application index).
- `commonbus.dfy` — the object's state: the constructor, `addEncoder`,
  `setDebounce`, `resetChronoAfter` and `focussed`.
- `arbiter.dfy` — `readAll`: the priority timeout, sticky focus on one
  encoder, and the ascending scan.
- `encoders.dfy`, `signals.dfy` — the encoder record, line levels, pin writes.
- `scenario.dfy` — one worked session through the whole model.

Every operation is a pure function or a method over immutable records. Line
levels and the millisecond clock are parameters: a call of `ReadAll` receives,
for each encoder id, a `Reading` of what the buses show while that encoder is
selected (debounced A, raw B, debounced S), plus the two clock values the
source reads with `millis()` (one for the timeout test, one for refreshing
`MYchrono`). Pin writes made by reads come back as a trace.

Behaviour of the code worth knowing, some of it contrary to the library's comments:

- In both decoders a rising A with B HIGH gives -1 and a rising A with B LOW
  gives +1; the comments beside `readEncoder4` call the first case clockwise
  (+1). Reading the comment table left to right therefore reports -1.
- The debounce mask `debounceDontCare` is never assigned after its
  initialisation (`setDebounce` assigns a local of the same name), so the
  register always compares 16 samples. `debounceWidth` only sets how many reads
  happen between exit tests. A width of 1 accepts a first LOW read at once
  (the register's initial zeros count as earlier LOW reads) but a HIGH level
  always needs 16 reads in a row.
- A press on an encoder with several modes still returns `indexS`.
- `addEncoder` keeps `currentMode`: re-registering an encoder with fewer modes can leave its mode at or above `modes`, and indices computed from it out of the intended range, until a press or a timeout brings it back.
- The timeout test also runs when nothing is focused, resetting the mode of
  slot 0, which is never read.

## Model

| member | source | states |
|---|---|---|
| Debouncer.Debounce | CommonBusEncoders.cpp:86-91 | returns the level of the first block end (a multiple of the width) at which the last 16 reads, counting the register's initial zeros as LOW reads, are all equal; every earlier block end was unsettled; `None` only if the reads run out first or the width is below 1 |
| Debouncer.ReadBlock | CommonBusEncoders.cpp:89 | after one block of `width` reads the register equals the reference layout of all reads so far |
| Debouncer.WindowStep | CommonBusEncoders.cpp:89 | shifting one read into the register (with the mask or-ed in) turns the layout of a history into the layout of the longer history |
| Debouncer.WindowExit | CommonBusEncoders.cpp:90-91 | the register equals 0xffff0000 iff the 16 remembered positions are LOW, equals 0xffffffff iff they are HIGH, and its bit 0 is the latest read |
| Debouncer.StableMeansLastSamples | CommonBusEncoders.cpp:87-90 | both directions: stable at v iff the last 16 real reads equal v, where for LOW missing reads count as LOW and for HIGH at least 16 reads are needed |
| Debouncer.HighNeedsSixteenReads | CommonBusEncoders.h:46 | with the fixed mask, a HIGH exit needs at least 16 reads whatever the width |
| Debouncer.ShortLowRunSettles | CommonBusEncoders.cpp:87-90 | fewer than 16 reads, all LOW, already match the LOW exit pattern |
| Quadrature.ReadEncoder4 | CommonBusEncoders.cpp:103-113 | non-zero exactly on a rising A; then -1 iff B is HIGH; result in {-1,0,1}; `lastA` becomes A on every call and nothing else changes |
| Quadrature.ReadEncoder2 | CommonBusEncoders.cpp:120-133 | non-zero exactly when A changed; falling A gives +1 iff B HIGH, rising A gives -1 iff B HIGH; result in {-1,0,1}; `lastA` becomes A |
| Quadrature.ForwardStep | CommonBusEncoders.cpp:96-133 | one step left to right along the comment table: the four-step decoder reports -1 exactly on entering the detent, the two-step decoder -1 exactly when A changes, neither ever +1 |
| Quadrature.BackwardStep | CommonBusEncoders.cpp:96-133 | one step right to left: the same edges with sign +1 |
| Quadrature.OneCycleForward | CommonBusEncoders.cpp:96-133 | any four consecutive forward steps total -1 (four-step) or -2 (two-step) |
| Quadrature.OneCycleBackward | CommonBusEncoders.cpp:96-133 | any four consecutive backward steps total +1 (four-step) or +2 (two-step) |
| Quadrature.FullTurnsForward | CommonBusEncoders.cpp:96-133 | n full cycles forwards total -n (four-step) or -2n (two-step), from any starting phase, threading `lastA` through the reads |
| Quadrature.FullTurnsBackward | CommonBusEncoders.cpp:96-133 | n full cycles backwards total +n or +2n |
| ModeSwitch.CRem | CommonBusEncoders.cpp:147 | C's remainder for a positive modulus: congruent to the dividend modulo m, in [0, m) for a non-negative dividend and in (-m, 0] for a negative one, which fixes it as the truncating remainder |
| ModeSwitch.SwitchPressed | CommonBusEncoders.cpp:144-151 | pressed iff the debounced switch is LOW; unpressed leaves the record unchanged; a press changes only `currentMode`, to (mode + 1) mod modes from any non-negative mode (an out-of-range mode left by re-registration included) and to C's truncating remainder in general; from a mode in range this is the next mode, wrapping from modes-1 to 0, so the range is kept |
| ModeSwitch.PressesCycle | CommonBusEncoders.cpp:137-147 | from a mode in range, n presses give mode (start + n) mod modes and change nothing else |
| ModeSwitch.PressesReturn | CommonBusEncoders.cpp:139-140 | `modes` presses bring the record back to where it started |
| ModeSwitch.AwaitRelease | CommonBusEncoders.cpp:148 | the release wait stops at the first HIGH level and all earlier ones were LOW; `None` means every level seen was LOW |
| Multiplexer.ReadEncoder | CommonBusEncoders.cpp:161-170 | returns one of {-1,0,1,9}; type 2 uses the two-step decoder and type 4 the four-step one; writes exactly pin LOW then pin HIGH; a turn is returned as decoded and then the switch is not consulted; 9 iff no turn and the switch is LOW; a press from a non-negative mode advances it to (mode + 1) mod modes and any other outcome keeps it; a type other than 2 or 4 decodes no turn and leaves `lastA`; configuration never changes; modes stay in range |
| Multiplexer.GetIndex | CommonBusEncoders.cpp:185-193 | a turn's index decodes back to (current mode, direction); a press gives `indexS`; no event gives 0; the record and pin writes are those of the read |
| Multiplexer.TurnIndexRoundTrip | CommonBusEncoders.cpp:174-180 | the map from (mode, direction) to index and its inverse compose to the identity both ways, so no two turns share an index |
| Multiplexer.CcwFollowsCw | CommonBusEncoders.cpp:189-190 | for the same record the counter-clockwise index is the clockwise index plus one |
| Multiplexer.ZeroMeansNoEvent | CommonBusEncoders.cpp:181-193 | with a positive base, a mode in range and a non-zero switch index, the index is 0 exactly when the read saw neither a turn nor a press |
| CommonBus.New | CommonBusEncoders.cpp:41-53 | `count + 1` slots, all zero except `lastA` HIGH; no focus; timeout 500 ms, width 16 and mask 0xffff0000 from the member initialisers; `MYchrono` and `isFocussed` keep whatever they held |
| CommonBus.AddEncoder | CommonBusEncoders.cpp:65-70 | writes the five configuration fields of slot `id` only; `lastA`, `currentMode` and every other slot are unchanged |
| CommonBus.RegisterAll | CommonBusEncoders.cpp:56-70 | a sequence of registrations changes only the table, never any slot's `lastA` or `currentMode`, and leaves slots no registration names untouched |
| CommonBus.LastRegistrationWins | CommonBusEncoders.cpp:65-70 | after a sequence of registrations, each slot named holds the five configuration fields of the last registration naming it, as repeated `addEncoder` calls overwrite one another |
| CommonBus.RegisteredBusIsWellFormed | CommonBusEncoders.cpp:58-63 | registering every id 1..count not already registered (in any order, repeats allowed) on a table whose current modes are all 0, as the constructor leaves it, makes the bus well-formed with every mode in range |
| CommonBus.SetDebounce | CommonBusEncoders.cpp:243-246 | only the width changes; the mask member keeps its value because the method assigns a shadowing local |
| CommonBus.ResetChronoAfter | CommonBusEncoders.cpp:234-235 | the timeout becomes the delay converted to `unsigned long`: the value in [0, 2^32) congruent to it, so a negative delay wraps to a huge one; nothing else changes |
| CommonBus.Focussed | CommonBusEncoders.cpp:252-253 | when the flag is consistent, true exactly while an encoder holds focus |
| FocusArbiter.ElapsedAcrossWrap | CommonBusEncoders.cpp:206 | the unsigned elapsed-time test is exact across a clock wrap: after t < 2^32 ms it fires iff t exceeds the limit |
| FocusArbiter.Expire | CommonBusEncoders.cpp:206-210 | on timeout: mode of slot `currentEncoder` (0 if none) set to 0, focus dropped, no other slot or field changed; otherwise nothing changes |
| FocusArbiter.Scan | CommonBusEncoders.cpp:217-226 | a scan that returns non-zero gives focus to an id it reached, sets `isFocussed` and refreshes `MYchrono`; a scan returning 0 leaves focus, flag and clock alone; only the table, focus, flag and clock can change |
| FocusArbiter.ScanWrites | CommonBusEncoders.cpp:217-218 | the pin writes are select/release of ids i..last, once each, in ascending order |
| FocusArbiter.ScanFirstActive | CommonBusEncoders.cpp:217-224 | every id read before the last gave index 0 (all of them when the scan returns 0) and the focused id gave the returned index |
| FocusArbiter.ScanFrame | CommonBusEncoders.cpp:217-226 | each id read holds the record its read produced; ids not reached are untouched |
| FocusArbiter.ScanIgnoresLaterIds | CommonBusEncoders.cpp:217-224 | what ids after the one that took focus would show does not change the outcome |
| FocusArbiter.ReadAll | CommonBusEncoders.cpp:203-227 | only table, focus, flag and clock change; a non-zero index leaves an encoder focused and refreshes the clock, a zero index leaves the clock alone; `isFocussed == (currentEncoder != 0)` is kept, and is established by a timeout |
| FocusArbiter.FocusIsSticky | CommonBusEncoders.cpp:211-215 | while focus lasts, a call reads only the focused encoder: the other ids' bus values are irrelevant, no other slot changes, focus stays, only its pin is written, the focused slot ends up holding the record its read produced (`lastA` updated, the mode advanced on a press), and a non-zero index refreshes the clock while a zero index keeps it |
| FocusArbiter.TimeoutRescans | CommonBusEncoders.cpp:206-217 | after a timeout the old focus's mode is 0 and the call is a scan from id 1 |
| FocusArbiter.IdleScans | CommonBusEncoders.cpp:206-226 | with nothing focused and no timeout the call is a plain scan from id 1 on the unchanged bus |
| FocusArbiter.SlotZeroUnchanged | CommonBusEncoders.cpp:204-210 | slot 0 never changes: the timeout writes the 0 its mode already holds |
| FocusArbiter.ModesStayInRange | CommonBusEncoders.cpp:203-227 | every registered encoder's mode stays in 0..modes-1 across calls, given it holds before; re-registering an encoder with fewer modes can break that premise, since `addEncoder` keeps `currentMode` |
| Scenario.FourStepSession | CommonBusEncoders.cpp:185-226 | a four-step encoder with base 100, two modes and switch index 50 yields 0, 101, 50, 0, 102, then after a 500 ms silence focus is released with the mode back at 0 |

## Left out

- Pin and clock calls (`pinMode`, `digitalRead`, `digitalWrite`, `millis`): levels and times are parameters; `readEncoder`'s select/release writes are returned as a trace, the `pinMode`/`digitalWrite` calls of the constructor and `addEncoder` are not.
- The unbounded spins of `debounce` and of the switch-release wait: both are modelled over finite sequences of reads and return `None` when these run out; nothing is claimed about termination.
- The composition of `debounce` with the decoders inside `readAll`: a `Reading` carries the levels `debounce` returned for A and S; `Debouncer.Debounce` states separately how such a level arises from raw reads.
- `calloc`: the table is a sequence of `count + 1` records.
- `setDebounce`'s loop computing a mask into its local variable: the value is discarded, so the loop has no observable effect.
- `currentEncoder` is a function-static variable shared by every `CommonBusEncoders` object; the model keeps it in the one bus it describes.
- C `int` width (16 bits on AVR boards): `indexE + 2 * currentMode` and the delay passed to `resetChronoAfter` are unbounded integers here; signed overflow is not modelled.
- The bus pins `MYpinA`, `MYpinB`, `MYpinS` are stored but only serve the pin calls.
- The wiring and diode comments and the electrical meaning of the buses.
- ModeSwitch.SwitchPressed: a press is taken as released at once; the source waits in `while (!debounce(S))` and hangs while the switch stays held, whereas `ReadEncoder`, `GetIndex` and `ReadAll` return the press (9 or `indexS`) in that case. `ModeSwitch.AwaitRelease` models the wait on its own.
- CommonBus.AddEncoder: requires `1 <= id <= count` and `modes >= 1`, which the source does not check; ids below 0 or above `count` write outside the table, undefined in C, and id 0 is excluded because slot 0 is never read, so registering it has no observable effect.
- FocusArbiter.ReadAll: requires every id 1..count to be registered with `modes >= 1` (also required by Multiplexer.ReadEncoder, Multiplexer.GetIndex, ModeSwitch.SwitchPressed); a press on an unregistered slot computes a remainder modulo 0, undefined in C.
- Debouncer.Debounce: a width below 1 returns `None` at once, standing for the source's endless spin on a register that stays 0.

=== FILE: arbiter.dfy ===
/**
  The sticky-focus arbiter (`readAll`). Each call first releases a focus whose
  priority timed out; then, while an encoder holds focus, it reads only that
  encoder, and otherwise it scans ids 1..count in order and gives focus to the
  first one whose index is non-zero.

  `view[i]` is what the buses show while encoder i is selected during this
  call. `now` is the clock read by the timeout test and `stamp` the clock read
  when `MYchrono` is refreshed: the source calls `millis()` at both places.
*/
module FocusArbiter {
  import opened Signals
  import opened Encoders
  import opened Multiplexer
  import opened CommonBus

  datatype Poll = Poll(bus: Bus, index: int, writes: seq<PinWrite>)

  /** `millis() - MYchrono` computed in `unsigned long`. */
  function Elapsed(now: U32, chrono: U32): U32
  {
    (now - chrono) % Modulus
  }

  predicate TimedOut(b: Bus, now: U32)
  {
    Elapsed(now, b.chrono) > b.timeLimit
  }

  /**
    The timeout test is right across a wrap of the clock: if t milliseconds
    (t < 2^32) have passed since `chrono`, the clock reads (chrono + t) mod 2^32
    and the test fires exactly when t exceeds the limit.
  */
  lemma ElapsedAcrossWrap(b: Bus, t: int)
    requires 0 <= t < Modulus
    ensures Elapsed((b.chrono + t) % Modulus, b.chrono) == t
    ensures TimedOut(b, (b.chrono + t) % Modulus) <==> t > b.timeLimit
  {
    var now := (b.chrono + t) % Modulus;
    if b.chrono + t < Modulus {
      assert now == b.chrono + t;
    } else {
      assert now == b.chrono + t - Modulus;
      assert now - b.chrono == t - Modulus;
    }
  }

  /**
    The timeout step at the top of `readAll`: on expiry the mode of slot
    `current` (slot 0 when nothing is focused) goes back to 0 and focus is
    dropped; nothing else changes.
  */
  function Expire(b: Bus, now: U32): (r: Bus)
    requires WellFormed(b)
    ensures WellFormed(r)
    ensures !TimedOut(b, now) ==> r == b
    ensures TimedOut(b, now) ==> r == b.(encoders := r.encoders, current := 0, focused := false)
    ensures TimedOut(b, now) ==>
      |r.encoders| == |b.encoders| && r.encoders[b.current] == b.encoders[b.current].(currentMode := 0)
    ensures TimedOut(b, now) ==> forall j :: 0 <= j < |b.encoders| && j != b.current ==> r.encoders[j] == b.encoders[j]
  {
    if TimedOut(b, now) then
      b.(encoders := b.encoders[b.current := b.encoders[b.current].(currentMode := 0)], current := 0, focused := false)
    else
      b
  }

  /** The select/release writes of ids lo..hi-1, in that order. */
  function Brackets(encs: seq<Encoder>, lo: int, hi: int): seq<PinWrite>
    requires 0 <= lo && hi <= |encs|
    decreases hi - lo
  {
    if lo >= hi then [] else Bracket(encs[lo].pin) + Brackets(encs, lo + 1, hi)
  }

  lemma {:induction false} BracketsSamePins(x: seq<Encoder>, y: seq<Encoder>, lo: int, hi: int)
    requires 0 <= lo && hi <= |x| == |y|
    requires forall j :: lo <= j < hi ==> x[j].pin == y[j].pin
    ensures Brackets(x, lo, hi) == Brackets(y, lo, hi)
    decreases hi - lo
  {
    if lo < hi {
      BracketsSamePins(x, y, lo + 1, hi);
    }
  }

  /** The last id a scan from `i` reads: the one that took focus, or `count`. */
  function LastRead(b: Bus, r: Poll): int
  {
    if r.index != 0 then r.bus.current else b.count
  }

  /**
    The scan of ids i..count. It reads them in ascending order and stops at
    the first non-zero index, which takes focus; ids it did not reach keep
    their state and see no pin writes.
  */
  function Scan(b: Bus, view: seq<Reading>, i: int, stamp: U32): (r: Poll)
    requires WellFormed(b) && |view| == |b.encoders| && 1 <= i <= b.count + 1
    decreases b.count + 1 - i
    ensures WellFormed(r.bus)
    ensures r.bus == b.(encoders := r.bus.encoders, current := r.bus.current, chrono := r.bus.chrono, focused := r.bus.focused)
    ensures r.index != 0 ==> i <= r.bus.current <= b.count && r.bus.focused && r.bus.chrono == stamp
    ensures r.index == 0 ==> r.bus.current == b.current && r.bus.focused == b.focused && r.bus.chrono == b.chrono
  {
    if i > b.count then
      Poll(b, 0, [])
    else
      var g := GetIndex(b.encoders[i], view[i]);
      var b1 := b.(encoders := b.encoders[i := g.enc]);
      if g.index != 0 then
        Poll(b1.(current := i, chrono := stamp, focused := true), g.index, g.writes)
      else
        var rest := Scan(b1, view, i + 1, stamp);
        Poll(rest.bus, rest.index, g.writes + rest.writes)
  }

  /** One step of a scan: an id whose index is 0 hands the rest of the scan to the next id. */
  lemma ScanSkips(b: Bus, view: seq<Reading>, i: int, stamp: U32)
    requires WellFormed(b) && |view| == |b.encoders| && 1 <= i <= b.count
    requires GetIndex(b.encoders[i], view[i]).index == 0
    ensures var b1 := b.(encoders := b.encoders[i := GetIndex(b.encoders[i], view[i]).enc]);
      var r := Scan(b, view, i, stamp);
      var rest := Scan(b1, view, i + 1, stamp);
      && r.bus == rest.bus && r.index == rest.index && LastRead(b, r) == LastRead(b1, rest)
  {
  }

  /** A scan selects and releases ids i..LastRead once each, in ascending order. */
  lemma {:induction false} ScanWrites(b: Bus, view: seq<Reading>, i: int, stamp: U32)
    requires WellFormed(b) && |view| == |b.encoders| && 1 <= i <= b.count + 1
    ensures var r := Scan(b, view, i, stamp);
      r.writes == Brackets(b.encoders, i, LastRead(b, r) + 1)
    decreases b.count + 1 - i
  {
    if i <= b.count {
      var g := GetIndex(b.encoders[i], view[i]);
      var b1 := b.(encoders := b.encoders[i := g.enc]);
      if g.index == 0 {
        var rest := Scan(b1, view, i + 1, stamp);
        ScanWrites(b1, view, i + 1, stamp);
        BracketsSamePins(b1.encoders, b.encoders, i + 1, LastRead(b1, rest) + 1);
      }
    }
  }

  /**
    A scan stops at the first active id: every id it read before the last gave
    index 0 (all of them when it returns 0), and the id that took focus gave
    the index returned.
  */
  lemma {:induction false} ScanFirstActive(b: Bus, view: seq<Reading>, i: int, stamp: U32)
    requires WellFormed(b) && |view| == |b.encoders| && 1 <= i <= b.count + 1
    ensures var r := Scan(b, view, i, stamp);
      && (forall j :: i <= j <= LastRead(b, r) && (j < LastRead(b, r) || r.index == 0) ==>
            GetIndex(b.encoders[j], view[j]).index == 0)
      && (r.index != 0 ==> r.index == GetIndex(b.encoders[r.bus.current], view[r.bus.current]).index)
    decreases b.count + 1 - i
  {
    if i <= b.count {
      var g := GetIndex(b.encoders[i], view[i]);
      var b1 := b.(encoders := b.encoders[i := g.enc]);
      if g.index == 0 {
        ScanSkips(b, view, i, stamp);
        ScanFirstActive(b1, view, i + 1, stamp);
        forall j | i + 1 <= j < |b.encoders|
          ensures b1.encoders[j] == b.encoders[j]
        {
        }
      }
    }
  }

  /** A scan changes exactly the slots it read, each to the record its read produced. */
  lemma {:induction false} ScanFrame(b: Bus, view: seq<Reading>, i: int, stamp: U32)
    requires WellFormed(b) && |view| == |b.encoders| && 1 <= i <= b.count + 1
    ensures var r := Scan(b, view, i, stamp);
      && (forall j :: i <= j <= LastRead(b, r) ==> r.bus.encoders[j] == GetIndex(b.encoders[j], view[j]).enc)
      && (forall j :: 0 <= j < |b.encoders| && (j < i || LastRead(b, r) < j) ==> r.bus.encoders[j] == b.encoders[j])
    decreases b.count + 1 - i
  {
    if i <= b.count {
      var g := GetIndex(b.encoders[i], view[i]);
      var b1 := b.(encoders := b.encoders[i := g.enc]);
      if g.index == 0 {
        var r := Scan(b, view, i, stamp);
        var last := LastRead(b, r);
        ScanSkips(b, view, i, stamp);
        ScanFrame(b1, view, i + 1, stamp);
        forall j | i <= j <= last
          ensures r.bus.encoders[j] == GetIndex(b.encoders[j], view[j]).enc
        {
          if j > i {
            assert b1.encoders[j] == b.encoders[j];
          }
        }
        forall j | 0 <= j < |b.encoders| && (j < i || last < j)
          ensures r.bus.encoders[j] == b.encoders[j]
        {
          assert b1.encoders[j] == b.encoders[j];
        }
      }
    }
  }

  /** One call of `readAll`. */
  function ReadAll(b: Bus, view: seq<Reading>, now: U32, stamp: U32): (r: Poll)
    requires WellFormed(b) && |view| == |b.encoders|
    ensures WellFormed(r.bus)
    ensures r.bus == b.(encoders := r.bus.encoders, current := r.bus.current, chrono := r.bus.chrono, focused := r.bus.focused)
    ensures r.index != 0 ==> r.bus.current != 0 && r.bus.chrono == stamp
    ensures r.index == 0 ==> r.bus.chrono == b.chrono
    ensures Consistent(b) || TimedOut(b, now) ==> Consistent(r.bus)
    ensures (b.current != 0 ==> b.focused) ==> (r.bus.current != 0 ==> r.bus.focused)
  {
    var e := Expire(b, now);
    if e.current != 0 then
      var c := e.current;
      var g := GetIndex(e.encoders[c], view[c]);
      var bus := e.(encoders := e.encoders[c := g.enc]);
      if g.index != 0 then Poll(bus.(chrono := stamp), g.index, g.writes)
      else Poll(bus, 0, g.writes)
    else
      Scan(e, view, 1, stamp)
  }

  /**
    Sticky focus: while the focus has not timed out, a call reads only the
    focused encoder. What the buses would show for any other id makes no
    difference, no other slot changes, focus stays, and only the focused
    encoder's pin is written.
  */
  lemma FocusIsSticky(b: Bus, view: seq<Reading>, other: seq<Reading>, now: U32, stamp: U32)
    requires WellFormed(b) && |view| == |b.encoders| == |other|
    requires !TimedOut(b, now) && b.current != 0
    requires other[b.current] == view[b.current]
    ensures ReadAll(b, other, now, stamp) == ReadAll(b, view, now, stamp)
    ensures var r := ReadAll(b, view, now, stamp);
      && r.bus.current == b.current && r.bus.focused == b.focused
      && r.index == GetIndex(b.encoders[b.current], view[b.current]).index
      && r.writes == Bracket(b.encoders[b.current].pin)
      && (forall j :: 0 <= j < |b.encoders| && j != b.current ==> r.bus.encoders[j] == b.encoders[j])
      && r.bus.encoders[b.current] == GetIndex(b.encoders[b.current], view[b.current]).enc
      && (r.index != 0 ==> r.bus.chrono == stamp)
      && (r.index == 0 ==> r.bus.chrono == b.chrono)
  {
  }

  /**
    On timeout the call resets the previously focused slot's mode to 0 and
    then scans every id from 1, as if nothing had been focused.
  */
  lemma TimeoutRescans(b: Bus, view: seq<Reading>, now: U32, stamp: U32)
    requires WellFormed(b) && |view| == |b.encoders|
    requires TimedOut(b, now)
    ensures Expire(b, now).current == 0 && !Expire(b, now).focused
    ensures Expire(b, now).encoders[b.current].currentMode == 0
    ensures ReadAll(b, view, now, stamp) == Scan(Expire(b, now), view, 1, stamp)
  {
  }

  /**
    A call with no focus and no timeout (the first call after construction,
    say) is a plain scan from id 1.
  */
  lemma IdleScans(b: Bus, view: seq<Reading>, now: U32, stamp: U32)
    requires WellFormed(b) && |view| == |b.encoders|
    requires b.current == 0 && !TimedOut(b, now)
    ensures ReadAll(b, view, now, stamp) == Scan(b, view, 1, stamp)
  {
  }

  /**
    A scan does not look past the id that takes focus: changing what later ids
    would show does not change the outcome.
  */
  lemma {:induction false} ScanIgnoresLaterIds(b: Bus, view: seq<Reading>, other: seq<Reading>, i: int, stamp: U32)
    requires WellFormed(b) && |view| == |b.encoders| == |other| && 1 <= i <= b.count + 1
    requires forall j :: i <= j <= LastRead(b, Scan(b, view, i, stamp)) ==> other[j] == view[j]
    ensures Scan(b, other, i, stamp) == Scan(b, view, i, stamp)
    decreases b.count + 1 - i
  {
    if i <= b.count {
      var g := GetIndex(b.encoders[i], view[i]);
      assert other[i] == view[i];
      if g.index == 0 {
        var b1 := b.(encoders := b.encoders[i := g.enc]);
        ScanIgnoresLaterIds(b1, view, other, i + 1, stamp);
      }
    }
  }

  /** Slot 0 is only ever written by the timeout, which writes the 0 it already holds. */
  lemma SlotZeroUnchanged(b: Bus, view: seq<Reading>, now: U32, stamp: U32)
    requires WellFormed(b) && |view| == |b.encoders|
    requires b.encoders[0].currentMode == 0
    ensures ReadAll(b, view, now, stamp).bus.encoders[0] == b.encoders[0]
  {
    var e := Expire(b, now);
    if e.current == 0 {
      ScanFrame(e, view, 1, stamp);
    }
  }

  predicate ModesInRange(b: Bus)
    requires |b.encoders| == b.count + 1
  {
    forall i :: 1 <= i <= b.count ==> ModeInRange(b.encoders[i])
  }

  /** Every registered encoder's mode stays in 0..modes-1 across calls. */
  lemma ModesStayInRange(b: Bus, view: seq<Reading>, now: U32, stamp: U32)
    requires WellFormed(b) && |view| == |b.encoders| && ModesInRange(b)
    ensures ModesInRange(ReadAll(b, view, now, stamp).bus)
  {
    var e := Expire(b, now);
    assert ModesInRange(e);
    if e.current == 0 {
      ScanFrame(e, view, 1, stamp);
    }
  }
}

=== FILE: commonbus.dfy ===
/**
  The `CommonBusEncoders` object: the bus pins, the table of `count + 1`
  encoder slots (slot 0 is allocated but never registered), and the fields of
  the focus arbiter and the debouncer, with the constructor, `addEncoder` and
  the setters.
*/
module CommonBus {
  import opened Signals
  import opened Encoders
  import Debouncer

  /** 2^32: `unsigned long` arithmetic wraps modulo this. */
  const Modulus: int := 0x1_0000_0000

  /** An `unsigned long`: the clock, the time of last activity and the timeout. */
  type U32 = x: int | 0 <= x < Modulus

  /** Default priority timeout `MYactiveTimeLimit`, in milliseconds. */
  const DefaultTimeLimit: U32 := 500

  /** Default `debounceWidth`: reads per block of the debouncer. */
  const DefaultDebounceWidth: int := 16

  datatype Bus = Bus(
    pinA: int,
    pinB: int,
    pinS: int,
    count: int,
    encoders: seq<Encoder>,
    current: int,          // `currentEncoder`, the function-static focus of `readAll`; 0 when none
    chrono: U32,           // `MYchrono`: time of the last non-zero index
    timeLimit: U32,        // `MYactiveTimeLimit`
    debounceWidth: int,
    dontCare: bv32,        // `debounceDontCare`
    focused: bool)         // `isFocussed`

  /**
    The shape `readAll` relies on: one slot per id plus slot 0, a focus that
    names a slot, and every id registered with at least one mode (a press on
    an unregistered id would take a remainder modulo 0).
  */
  predicate WellFormed(b: Bus)
  {
    && 0 <= b.count
    && |b.encoders| == b.count + 1
    && 0 <= b.current <= b.count
    && forall i :: 1 <= i <= b.count ==> b.encoders[i].modes >= 1
  }

  /** `focussed()` tells the truth about `currentEncoder`. */
  predicate Consistent(b: Bus)
  {
    b.focused == (b.current != 0)
  }

  /**
    The constructor. `chrono` and `focused` are the values `MYchrono` and
    `isFocussed` happen to hold, since the constructor never sets them.
  */
  function New(pinA: int, pinB: int, pinS: int, count: int, chrono: U32, focused: bool): (r: Bus)
    requires count >= 0
    ensures |r.encoders| == count + 1
    ensures forall i :: 0 <= i <= count ==> r.encoders[i] == Unregistered
    ensures r.count == count && r.current == 0 && r.chrono == chrono && r.focused == focused
    ensures r.timeLimit == 500 && r.debounceWidth == 16 && r.dontCare == 0xffff_0000
    ensures r.pinA == pinA && r.pinB == pinB && r.pinS == pinS
  {
    Bus(pinA, pinB, pinS, count, seq(count + 1, _ => Unregistered), 0,
        chrono, DefaultTimeLimit, DefaultDebounceWidth, Debouncer.DontCare, focused)
  }

  /** The arguments of one `addEncoder` call. */
  datatype Registration = Registration(id: int, steps: int, pin: int, modes: int, indexE: int, indexS: int)

  /**
    `addEncoder`: writes the five configuration fields of slot `id` and
    nothing else; `lastA` and `currentMode` keep their values.
  */
  function AddEncoder(b: Bus, g: Registration): (r: Bus)
    requires |b.encoders| == b.count + 1
    requires ValidRegistration(b.count, g)
    ensures r == b.(encoders := r.encoders)
    ensures |r.encoders| == |b.encoders|
    ensures forall j :: 0 <= j < |b.encoders| && j != g.id ==> r.encoders[j] == b.encoders[j]
    ensures var e := r.encoders[g.id];
      && e.steps == g.steps && e.pin == g.pin && e.modes == g.modes && e.indexE == g.indexE && e.indexS == g.indexS
      && e.lastA == b.encoders[g.id].lastA && e.currentMode == b.encoders[g.id].currentMode
  {
    var e := b.encoders[g.id];
    b.(encoders := b.encoders[g.id := e.(steps := g.steps, pin := g.pin, modes := g.modes,
                                         indexE := g.indexE, indexS := g.indexS)])
  }

  predicate ValidRegistration(count: int, g: Registration)
  {
    1 <= g.id <= count && g.modes >= 1
  }

  /**
    A setup sketch's sequence of `addEncoder` calls. Registration touches only
    the table, and never the read state (`lastA`, `currentMode`) of any slot.
  */
  function RegisterAll(b: Bus, gs: seq<Registration>): (r: Bus)
    requires |b.encoders| == b.count + 1
    requires forall k :: 0 <= k < |gs| ==> ValidRegistration(b.count, gs[k])
    ensures r == b.(encoders := r.encoders) && |r.encoders| == |b.encoders|
    ensures forall i :: 0 <= i < |b.encoders| ==>
      r.encoders[i].lastA == b.encoders[i].lastA && r.encoders[i].currentMode == b.encoders[i].currentMode
    ensures forall i :: 0 <= i < |b.encoders| && (forall k :: 0 <= k < |gs| ==> gs[k].id != i) ==>
      r.encoders[i] == b.encoders[i]
    decreases |gs|
  {
    if gs == [] then b else RegisterAll(AddEncoder(b, gs[0]), gs[1..])
  }

  /** Slot `id` carries the configuration registration `g` asks for. */
  predicate Configured(e: Encoder, g: Registration)
  {
    e.steps == g.steps && e.pin == g.pin && e.modes == g.modes && e.indexE == g.indexE && e.indexS == g.indexS
  }

  /**
    Repeated `addEncoder` calls on one id: the last one wins. Each slot a
    registration names ends up with the configuration of the last
    registration naming it.
  */
  lemma {:induction false} LastRegistrationWins(b: Bus, gs: seq<Registration>, k: int)
    requires |b.encoders| == b.count + 1
    requires forall k1 :: 0 <= k1 < |gs| ==> ValidRegistration(b.count, gs[k1])
    requires 0 <= k < |gs| && forall k2 :: k < k2 < |gs| ==> gs[k2].id != gs[k].id
    ensures Configured(RegisterAll(b, gs).encoders[gs[k].id], gs[k])
    decreases |gs|
  {
    var b1 := AddEncoder(b, gs[0]);
    var rest := gs[1..];
    if k == 0 {
      forall k2 | 0 <= k2 < |rest|
        ensures rest[k2].id != gs[0].id
      {
        assert rest[k2] == gs[k2 + 1];
      }
    } else {
      assert rest[k - 1] == gs[k];
      forall k2 | k - 1 < k2 < |rest|
        ensures rest[k2].id != rest[k - 1].id
      {
        assert rest[k2] == gs[k2 + 1];
      }
      LastRegistrationWins(b1, rest, k - 1);
    }
  }

  /**
    Registering every id 1..count (in any order, repeats allowed) makes a
    freshly constructed bus well-formed, with every mode in range.
  */
  lemma {:induction false} RegisteredBusIsWellFormed(b: Bus, gs: seq<Registration>)
    requires |b.encoders| == b.count + 1 && 0 <= b.current <= b.count
    requires forall k :: 0 <= k < |gs| ==> ValidRegistration(b.count, gs[k])
    requires forall i :: 1 <= i <= b.count ==> b.encoders[i].currentMode == 0
    requires forall i :: 1 <= i <= b.count ==> b.encoders[i].modes >= 1 || exists k :: 0 <= k < |gs| && gs[k].id == i
    ensures WellFormed(RegisterAll(b, gs))
    ensures forall i :: 1 <= i <= b.count ==> ModeInRange(RegisterAll(b, gs).encoders[i])
    decreases |gs|
  {
    if gs != [] {
      var b1 := AddEncoder(b, gs[0]);
      var rest := gs[1..];
      forall i | 1 <= i <= b1.count
        ensures b1.encoders[i].modes >= 1 || exists k :: 0 <= k < |rest| && rest[k].id == i
      {
        if b1.encoders[i].modes < 1 {
          var k :| 0 <= k < |gs| && gs[k].id == i;
          assert k != 0;
          assert rest[k - 1].id == i;
        }
      }
      RegisteredBusIsWellFormed(b1, rest);
    }
  }

  /**
    `setDebounce`: only the width changes. The mask the method computes goes
    to a local that shadows the member, so `dontCare` keeps its value.
  */
  function SetDebounce(b: Bus, w: int): (r: Bus)
    ensures r.debounceWidth == w && r.dontCare == b.dontCare
    ensures r.(debounceWidth := b.debounceWidth) == b
  {
    b.(debounceWidth := w)
  }

  /**
    `resetChronoAfter`: the `int` delay converted to `unsigned long`, that is
    reduced modulo 2^32, so a negative delay becomes a very long timeout.
  */
  function ResetChronoAfter(b: Bus, delay: int): (r: Bus)
    ensures (r.timeLimit - delay) % Modulus == 0
    ensures 0 <= delay < Modulus ==> r.timeLimit == delay
    ensures -Modulus <= delay < 0 ==> r.timeLimit == delay + Modulus
    ensures r.(timeLimit := b.timeLimit) == b
  {
    b.(timeLimit := delay % Modulus)
  }

  /** `focussed()`. */
  function Focussed(b: Bus): (r: bool)
    ensures Consistent(b) ==> (r <==> b.current != 0)
  {
    b.focused
  }
}

=== FILE: debouncer.dfy ===
/**
  The shift-register debouncer (`debounce`).

  The register is an `unsigned long` (32 bits), starts at 0, and each read
  shifts it left by one, ors in the sample and ors in the member mask
  `debounceDontCare`. That mask is never assigned after its initialisation, so
  it is the constant 0xffff0000 whatever `debounceWidth` is. The exit test runs
  only after each block of `debounceWidth` reads and accepts the register when
  it equals the mask (16 zeros) or 0xffffffff (16 ones).

  The source spins until the line settles; here the reads come from a finite
  sequence of samples and `None` means that the sequence ran out first.
*/
module Debouncer {
  import opened Signals

  /** The member mask `debounceDontCare`: bits 16..31 set, bits 0..15 clear. */
  const DontCare: bv32 := 0xffff_0000

  /** The register value that reports a stable HIGH line. */
  const AllOnes: bv32 := 0xffff_ffff

  function Bit(x: Level): bv32
  {
    if x == HIGH then 1 else 0
  }

  /** One pass of the sampling statement: shift left, or in the sample, or in the mask. */
  function Shift(reg: bv32, x: Level): bv32
  {
    (reg << 1) | Bit(x) | DontCare
  }

  /** The level the register's bit 0 reports, as the final `pinStatus & 1`. */
  function LowBit(reg: bv32): Level
  {
    if reg & 1 == 1 then HIGH else LOW
  }

  /**
    The k-th most recent of the samples `s` (k = 1 is the latest). Positions
    before the first sample read as 0: they are the register's initial zeros.
  */
  function Recent(s: seq<Level>, k: int): Level
  {
    if 1 <= k <= |s| then s[|s| - k] else LOW
  }

  /**
    Reference layout of the register once at least one sample has been read:
    bits 16..31 set, and bit j (j < 16) holding the (j+1)-th most recent sample.
  */
  function Window(s: seq<Level>): bv32
  {
    DontCare
    | Bit(Recent(s, 1))
    | (Bit(Recent(s, 2)) << 1)
    | (Bit(Recent(s, 3)) << 2)
    | (Bit(Recent(s, 4)) << 3)
    | (Bit(Recent(s, 5)) << 4)
    | (Bit(Recent(s, 6)) << 5)
    | (Bit(Recent(s, 7)) << 6)
    | (Bit(Recent(s, 8)) << 7)
    | (Bit(Recent(s, 9)) << 8)
    | (Bit(Recent(s, 10)) << 9)
    | (Bit(Recent(s, 11)) << 10)
    | (Bit(Recent(s, 12)) << 11)
    | (Bit(Recent(s, 13)) << 12)
    | (Bit(Recent(s, 14)) << 13)
    | (Bit(Recent(s, 15)) << 14)
    | (Bit(Recent(s, 16)) << 15)
  }

  /** The sixteen positions the register remembers all hold `v`. */
  predicate Stable(s: seq<Level>, v: Level)
  {
    forall k :: 1 <= k <= 16 ==> Recent(s, k) == v
  }

  /** Neither exit pattern: the debouncer keeps reading. */
  predicate Unsettled(s: seq<Level>)
  {
    !Stable(s, LOW) && !Stable(s, HIGH)
  }

  /** The reads taken when the exit test runs for the k-th time. */
  function Checkpoint(samples: seq<Level>, width: int, k: int): seq<Level>
  {
    if 0 <= k * width <= |samples| then samples[..k * width] else []
  }

  /** A settled read: the level returned and how many blocks of reads it took. */
  datatype Settled = Settled(level: Level, blocks: nat)

  lemma SixteenCases(k: int)
    requires 1 <= k <= 16
    ensures k == 1 || k == 2 || k == 3 || k == 4 || k == 5 || k == 6 || k == 7 || k == 8
         || k == 9 || k == 10 || k == 11 || k == 12 || k == 13 || k == 14 || k == 15 || k == 16
  {
  }

  /** Shifting a sample into the reference layout gives the layout of the longer history. */
  lemma WindowStep(s: seq<Level>, x: Level)
    ensures Shift(Window(s), x) == Window(s + [x])
  {
    var t := s + [x];
    assert Recent(t, 1) == x;
    forall k | 1 <= k <= 15
      ensures Recent(t, k + 1) == Recent(s, k)
    {
    }
  }

  /** The register's first read lands in the reference layout although the register starts at 0. */
  lemma WindowFirst(x: Level)
    ensures Shift(0, x) == Window([x])
  {
    WindowStep([], x);
  }

  /**
    The exit test reads the reference layout exactly: the register equals the
    mask iff the sixteen remembered positions are LOW, equals all ones iff they
    are HIGH, and its bit 0 is the latest sample.
  */
  lemma WindowExit(s: seq<Level>)
    ensures Window(s) == DontCare <==> Stable(s, LOW)
    ensures Window(s) == AllOnes <==> Stable(s, HIGH)
    ensures LowBit(Window(s)) == Recent(s, 1)
  {
    if Window(s) == DontCare {
      forall k | 1 <= k <= 16 ensures Recent(s, k) == LOW {
        SixteenCases(k);
      }
    }
    if Window(s) == AllOnes {
      forall k | 1 <= k <= 16 ensures Recent(s, k) == HIGH {
        SixteenCases(k);
      }
    }
  }

  /**
    What "stable" means in terms of the samples themselves: the last sixteen
    reads all equal v, where for LOW the missing reads before the first one
    count as LOW; a HIGH exit therefore needs at least sixteen real reads.
  */
  lemma StableMeansLastSamples(s: seq<Level>, v: Level)
    ensures Stable(s, v) <==>
      (forall i :: 0 <= i < |s| && |s| - 16 <= i ==> s[i] == v) && (v == HIGH ==> |s| >= 16)
  {
    if Stable(s, v) {
      forall i | 0 <= i < |s| && |s| - 16 <= i
        ensures s[i] == v
      {
        assert Recent(s, |s| - i) == s[i];
      }
      if v == HIGH {
        assert Recent(s, 16) == HIGH;
      }
    }
  }

  /** A HIGH line is accepted only after sixteen real reads, whatever the width. */
  lemma HighNeedsSixteenReads(s: seq<Level>)
    requires Stable(s, HIGH)
    ensures |s| >= 16
  {
    StableMeansLastSamples(s, HIGH);
  }

  /** With fewer than sixteen reads, all of them LOW already satisfies the LOW exit. */
  lemma ShortLowRunSettles(s: seq<Level>)
    requires 1 <= |s| < 16
    requires forall i :: 0 <= i < |s| ==> s[i] == LOW
    ensures Stable(s, LOW)
    ensures Window(s) == DontCare
  {
    StableMeansLastSamples(s, LOW);
    WindowExit(s);
  }

  lemma BlocksBefore(k: int, blocks: int, width: int, n: int)
    requires 1 <= width && 0 <= blocks
    requires n < (blocks + 1) * width && k * width <= n
    ensures k <= blocks
  {
  }

  /** One run of the inner `for`: `width` reads shifted into the register. */
  method ReadBlock(samples: seq<Level>, pos: int, width: int, reg0: bv32) returns (reg: bv32)
    requires 0 <= pos && 1 <= width && pos + width <= |samples|
    requires pos == 0 ==> reg0 == 0
    requires pos > 0 ==> reg0 == Window(samples[..pos])
    ensures reg == Window(samples[..pos + width])
  {
    reg := reg0;
    var i := 0;
    while i < width
      invariant 0 <= i <= width
      invariant pos + i == 0 ==> reg == 0
      invariant pos + i > 0 ==> reg == Window(samples[..pos + i])
    {
      var x := samples[pos + i];
      if pos + i == 0 {
        WindowFirst(x);
      } else {
        WindowStep(samples[..pos + i], x);
      }
      assert samples[..pos + i + 1] == samples[..pos + i] + [x];
      reg := (reg << 1) | Bit(x) | DontCare;
      i := i + 1;
    }
  }

  /**
    The debounce loop over a finite sequence of reads. It returns the level of
    the first block end at which the register shows sixteen equal positions;
    every earlier block end showed neither pattern. `None` means the reads ran
    out first, or the width is below 1 (the register then stays 0 forever).
  */
  method Debounce(samples: seq<Level>, width: int) returns (r: Option<Settled>)
    ensures r.Some? ==> 1 <= width && 1 <= r.value.blocks && r.value.blocks * width <= |samples|
    ensures r.Some? ==> Stable(Checkpoint(samples, width, r.value.blocks), r.value.level)
    ensures r.Some? ==> forall k :: 1 <= k < r.value.blocks ==>
      k * width <= |samples| && Unsettled(Checkpoint(samples, width, k))
    ensures r.None? ==> width < 1 || forall k :: 1 <= k && k * width <= |samples| ==>
      Unsettled(Checkpoint(samples, width, k))
  {
    if width < 1 {
      return None;
    }
    var reg: bv32 := 0;
    var pos := 0;
    var blocks := 0;
    while pos + width <= |samples|
      invariant 0 <= pos == blocks * width <= |samples|
      invariant pos == 0 ==> reg == 0
      invariant pos > 0 ==> reg == Window(samples[..pos])
      invariant forall k :: 1 <= k <= blocks ==>
        k * width <= |samples| && Unsettled(Checkpoint(samples, width, k))
      decreases |samples| - pos
    {
      reg := ReadBlock(samples, pos, width, reg);
      pos := pos + width;
      blocks := blocks + 1;
      assert Checkpoint(samples, width, blocks) == samples[..pos];
      WindowExit(samples[..pos]);
      if reg == DontCare || reg == AllOnes {
        return Some(Settled(LowBit(reg), blocks));
      }
    }
    forall k | 1 <= k && k * width <= |samples|
      ensures Unsettled(Checkpoint(samples, width, k))
    {
      BlocksBefore(k, blocks, width, |samples|);
    }
    return None;
  }
}

=== FILE: encoders.dfy ===
/**
  The per-encoder record (`struct encoder`): its configuration, written once by
  `addEncoder`, and the two fields a read changes, `lastA` and `currentMode`.
*/
module Encoders {
  import opened Signals

  datatype Encoder = Encoder(
    steps: int,        // 2 or 4 steps per detent; any other value decodes no rotation
    pin: int,          // the encoder's common (select) pin
    modes: int,        // number of modes the switch cycles through
    indexE: int,       // index of a clockwise turn in mode 0
    indexS: int,       // index of a switch press
    lastA: Level,      // level of bus A at the previous read
    currentMode: int)

  /** A slot as the constructor leaves it: zero-filled, except that bus A is taken to rest HIGH. */
  const Unregistered: Encoder := Encoder(0, 0, 0, 0, 0, HIGH, 0)

  /** Two records agree on everything `addEncoder` writes. */
  predicate SameConfig(x: Encoder, y: Encoder)
  {
    x.steps == y.steps && x.pin == y.pin && x.modes == y.modes && x.indexE == y.indexE && x.indexS == y.indexS
  }

  predicate ModeInRange(e: Encoder)
  {
    0 <= e.currentMode < e.modes
  }
}

=== FILE: modeswitch.dfy ===
/**
  Mode cycling on a switch press (`switchPressed`). The switch bus is active
  LOW: a debounced LOW means pressed. A press advances `currentMode` modulo
  `modes`; the wait for the release is modelled separately by `AwaitRelease`.
*/
module ModeSwitch {
  import opened Signals
  import opened Encoders

  /** C's `%` for a positive divisor: the remainder takes the sign of the dividend. */
  function CRem(x: int, m: int): (r: int)
    requires m >= 1
    ensures x >= 0 ==> 0 <= r < m
    ensures x < 0 ==> -m < r <= 0
    ensures x >= 0 ==> r == x % m
    ensures (x - r) % m == 0
  {
    if x >= 0 then
      ModUnique(x - x % m, m, x / m, 0);
      x % m
    else
      ModUnique(x + (-x) % m, m, -((-x) / m), 0);
      -((-x) % m)
  }

  datatype Press = Press(enc: Encoder, pressed: bool)

  /** Reads the debounced switch level `s` for encoder `e`. */
  function SwitchPressed(e: Encoder, s: Level): (r: Press)
    requires e.modes >= 1
    ensures r.pressed <==> s == LOW
    ensures !r.pressed ==> r.enc == e
    ensures r.enc == e.(currentMode := r.enc.currentMode)
    ensures r.pressed && ModeInRange(e) ==>
      r.enc.currentMode == (if e.currentMode == e.modes - 1 then 0 else e.currentMode + 1)
    ensures r.pressed && 0 <= e.currentMode ==> r.enc.currentMode == (e.currentMode + 1) % e.modes
    ensures r.pressed ==> (e.currentMode + 1 - r.enc.currentMode) % e.modes == 0
    ensures ModeInRange(e) ==> ModeInRange(r.enc)
  {
    if s == LOW then Press(e.(currentMode := CRem(e.currentMode + 1, e.modes)), true)
    else Press(e, false)
  }

  /** The record after n confirmed presses. */
  function Presses(e: Encoder, n: nat): Encoder
    requires e.modes >= 1
    decreases n
  {
    if n == 0 then e else Presses(SwitchPressed(e, LOW).enc, n - 1)
  }

  /** Euclidean division is unique: a quotient and an in-range remainder fix `x % m`. */
  lemma ModUnique(x: int, m: int, q: int, r: int)
    requires 1 <= m && 0 <= r < m && x == q * m + r
    ensures x % m == r
  {
    var d := q - x / m;
    assert d * m == q * m - (x / m) * m;
    assert d * m == x % m - r;
    MultipleBounds(d, m);
  }

  /** A non-zero multiple of m is at least m away from 0. */
  lemma MultipleBounds(d: int, m: int)
    requires 1 <= m
    ensures d >= 1 ==> d * m >= m
    ensures d <= -1 ==> d * m <= -m
  {
  }

  /** Adding the modulus does not change the remainder. */
  lemma ModShift(y: int, m: int)
    requires 1 <= m
    ensures (y + m) % m == y % m
  {
    ModUnique(y + m, m, y / m + 1, y % m);
  }

  /**
    From a mode in range, n presses land on mode (start + n) mod modes and
    change nothing else; after `modes` presses the record is back where it
    started.
  */
  lemma {:induction false} PressesCycle(e: Encoder, n: nat)
    requires ModeInRange(e)
    ensures Presses(e, n) == e.(currentMode := (e.currentMode + n) % e.modes)
    decreases n
  {
    if n == 0 {
      ModUnique(e.currentMode, e.modes, 0, e.currentMode);
    } else {
      var e1 := SwitchPressed(e, LOW).enc;
      PressesCycle(e1, n - 1);
      if e.currentMode == e.modes - 1 {
        ModShift(n - 1, e.modes);
      }
    }
  }

  lemma PressesReturn(e: Encoder)
    requires ModeInRange(e)
    ensures Presses(e, e.modes as nat) == e
  {
    PressesCycle(e, e.modes as nat);
    ModUnique(e.currentMode + e.modes, e.modes, 1, e.currentMode);
  }

  /**
    The wait `while (!debounce(S)) {}` after a press, over the successive
    debounced switch levels. It stops at the first HIGH (released) level and
    returns its position; `None` means every level seen was LOW.
  */
  method AwaitRelease(levels: seq<Level>) returns (r: Option<nat>)
    ensures r.Some? ==> r.value < |levels| && levels[r.value] == HIGH
    ensures r.Some? ==> forall j :: 0 <= j < r.value ==> levels[j] == LOW
    ensures r.None? ==> forall j :: 0 <= j < |levels| ==> levels[j] == LOW
  {
    var i := 0;
    while i < |levels|
      invariant 0 <= i <= |levels|
      invariant forall j :: 0 <= j < i ==> levels[j] == LOW
    {
      if levels[i] == HIGH {
        return Some(i);
      }
      i := i + 1;
    }
    return None;
  }
}

=== FILE: multiplexer.dfy ===
/**
  One encoder's read on the shared buses (`readEncoder`) and the mapping of
  its outcome to an application index (`getIndex`).
*/
module Multiplexer {
  import opened Signals
  import opened Encoders
  import opened Quadrature
  import opened ModeSwitch

  /** The value `readEncoder` returns when the switch was pressed and nothing turned. */
  const SwitchFlag: int := 9

  /**
    What the buses show while one encoder is selected: the debounced level of
    bus A, the raw level of bus B and the debounced level of the switch bus.
  */
  datatype Reading = Reading(a: Level, b: Level, s: Level)

  datatype Selected = Selected(enc: Encoder, signal: int, writes: seq<PinWrite>)

  /** The decoder chosen by `steps`; any other value decodes nothing and reads neither bus. */
  function Rotate(e: Encoder, rd: Reading): Decoded
  {
    if e.steps == 2 then ReadEncoder2(e, rd.a, rd.b)
    else if e.steps == 4 then ReadEncoder4(e, rd.a, rd.b)
    else Decoded(e, 0)
  }

  /**
    Selects the encoder, decodes a rotation, consults the switch only when
    there was none, and releases the encoder again.
  */
  function ReadEncoder(e: Encoder, rd: Reading): (r: Selected)
    requires e.modes >= 1
    ensures r.signal in {-1, 0, 1, SwitchFlag}
    ensures e.steps == 2 ==> Rotate(e, rd) == ReadEncoder2(e, rd.a, rd.b)
    ensures e.steps == 4 ==> Rotate(e, rd) == ReadEncoder4(e, rd.a, rd.b)
    ensures r.writes == Bracket(e.pin)
    ensures SameConfig(r.enc, e)
    ensures r.signal in {-1, 1} <==> Rotate(e, rd).rotation != 0
    ensures r.signal in {-1, 1} ==> r.signal == Rotate(e, rd).rotation && r.enc == Rotate(e, rd).enc
    ensures r.signal == SwitchFlag <==> Rotate(e, rd).rotation == 0 && rd.s == LOW
    ensures r.signal != SwitchFlag ==> r.enc.currentMode == e.currentMode
    ensures 0 <= e.currentMode && r.signal == SwitchFlag ==> r.enc.currentMode == (e.currentMode + 1) % e.modes
    ensures e.steps != 2 && e.steps != 4 ==> r.signal in {0, SwitchFlag} && r.enc.lastA == e.lastA
    ensures (e.steps == 2 || e.steps == 4) ==> r.enc.lastA == rd.a
    ensures ModeInRange(e) ==> ModeInRange(r.enc)
  {
    var d := Rotate(e, rd);
    if d.rotation == 0 then
      var p := SwitchPressed(d.enc, rd.s);
      Selected(p.enc, if p.pressed then SwitchFlag else 0, Bracket(e.pin))
    else
      Selected(d.enc, d.rotation, Bracket(e.pin))
  }

  /** The index of a turn in `mode`: clockwise (+1) on the even slot, counter-clockwise on the odd one. */
  function TurnIndex(base: int, mode: int, rotation: int): int
  {
    base + 2 * mode + (if rotation == 1 then 0 else 1)
  }

  /** The inverse of `TurnIndex`: the mode and direction an index stands for. */
  function TurnOf(base: int, index: int): (int, int)
  {
    ((index - base) / 2, if (index - base) % 2 == 0 then 1 else -1)
  }

  /** Every turn has its own index, and every index is some turn's. */
  lemma TurnIndexRoundTrip(base: int, mode: int, rotation: int, index: int)
    requires rotation in {-1, 1}
    ensures TurnOf(base, TurnIndex(base, mode, rotation)) == (mode, rotation)
    ensures TurnIndex(base, TurnOf(base, index).0, TurnOf(base, index).1) == index
  {
  }

  datatype Indexed = Indexed(enc: Encoder, index: int, writes: seq<PinWrite>)

  /**
    Reads the encoder and maps the outcome: a turn to the index of its mode
    and direction (the mode as it stands after the read), a switch press to
    `indexS`, nothing to 0.
  */
  function GetIndex(e: Encoder, rd: Reading): (r: Indexed)
    requires e.modes >= 1
    ensures r.enc == ReadEncoder(e, rd).enc
    ensures r.writes == Bracket(e.pin)
    ensures ReadEncoder(e, rd).signal in {-1, 1} ==>
      TurnOf(e.indexE, r.index) == (e.currentMode, ReadEncoder(e, rd).signal)
    ensures ReadEncoder(e, rd).signal == SwitchFlag ==> r.index == e.indexS
    ensures ReadEncoder(e, rd).signal == 0 ==> r.index == 0
  {
    var sel := ReadEncoder(e, rd);
    var m := sel.enc.currentMode;
    var index :=
      if sel.signal == 1 then sel.enc.indexE + m * 2
      else if sel.signal == -1 then sel.enc.indexE + m * 2 + 1
      else if sel.signal == SwitchFlag then sel.enc.indexS
      else 0;
    Indexed(sel.enc, index, sel.writes)
  }

  /** For the same record, a counter-clockwise turn maps one above a clockwise one. */
  lemma CcwFollowsCw(e: Encoder, cw: Reading, ccw: Reading)
    requires e.modes >= 1
    requires ReadEncoder(e, cw).signal == 1 && ReadEncoder(e, ccw).signal == -1
    ensures GetIndex(e, ccw).index == GetIndex(e, cw).index + 1
  {
    var i := GetIndex(e, cw).index;
    var j := GetIndex(e, ccw).index;
    TurnIndexRoundTrip(e.indexE, 0, 1, i);
    TurnIndexRoundTrip(e.indexE, 0, 1, j);
  }

  /**
    Index 0 is reserved for "nothing happened": with a positive rotation base,
    a mode in range and a non-zero switch index, the index is 0 exactly when
    the read saw neither a turn nor a press.
  */
  lemma ZeroMeansNoEvent(e: Encoder, rd: Reading)
    requires ModeInRange(e) && e.indexE > 0 && e.indexS != 0
    ensures GetIndex(e, rd).index == 0 <==> ReadEncoder(e, rd).signal == 0
  {
    var r := GetIndex(e, rd);
    if ReadEncoder(e, rd).signal in {-1, 1} {
      TurnIndexRoundTrip(e.indexE, 0, 1, r.index);
    }
  }
}

=== FILE: quadrature.dfy ===
/**
  The two quadrature decoders (`readEncoder4`, `readEncoder2`). Each takes the
  debounced level of bus A, the raw level of bus B and the stored `lastA`, and
  returns a rotation in {-1, 0, 1} together with the record whose `lastA` now
  holds A.

  The signs are the code's: a rising A with B HIGH is -1 in both decoders,
  although the comments next to `readEncoder4` call that case clockwise.
*/
module Quadrature {
  import opened Signals
  import opened Encoders

  datatype Decoded = Decoded(enc: Encoder, rotation: int)

  predicate Rising(last: Level, a: Level)
  {
    last == LOW && a == HIGH
  }

  predicate Falling(last: Level, a: Level)
  {
    last == HIGH && a == LOW
  }

  /** Four steps per detent: only a rising A counts, B gives the direction. */
  function ReadEncoder4(e: Encoder, a: Level, b: Level): (r: Decoded)
    ensures r.enc == e.(lastA := a)
    ensures r.rotation != 0 <==> Rising(e.lastA, a)
    ensures Rising(e.lastA, a) ==> (r.rotation == -1 <==> b == HIGH)
    ensures r.rotation in {-1, 0, 1}
  {
    var rotation := if e.lastA == LOW && a == HIGH then (if b == HIGH then -1 else 1) else 0;
    Decoded(e.(lastA := a), rotation)
  }

  /** Two steps per detent: both edges of A count, with opposite readings of B. */
  function ReadEncoder2(e: Encoder, a: Level, b: Level): (r: Decoded)
    ensures r.enc == e.(lastA := a)
    ensures r.rotation != 0 <==> e.lastA != a
    ensures Falling(e.lastA, a) ==> (r.rotation == 1 <==> b == HIGH)
    ensures Rising(e.lastA, a) ==> (r.rotation == -1 <==> b == HIGH)
    ensures r.rotation in {-1, 0, 1}
  {
    var rotation :=
      if e.lastA == HIGH && a == LOW then (if b == HIGH then 1 else -1)
      else if e.lastA == LOW && a == HIGH then (if b == HIGH then -1 else 1)
      else 0;
    Decoded(e.(lastA := a), rotation)
  }

  /** The decoder an encoder of the given kind uses. */
  function Decode(four: bool, e: Encoder, a: Level, b: Level): Decoded
  {
    if four then ReadEncoder4(e, a, b) else ReadEncoder2(e, a, b)
  }

  /**
    The quadrature cycle in the order of the table above `readEncoder4`
    (steps 1..4; steps 5..8 repeat it), as (A, B). Phase 3, both lines HIGH,
    is the detent of a four-step encoder.
  */
  function Phase(k: int): (Level, Level)
  {
    var p := k % 4;
    if p == 0 then (HIGH, LOW) else if p == 1 then (LOW, LOW) else if p == 2 then (LOW, HIGH) else (HIGH, HIGH)
  }

  /**
    One step along the table, forwards (left to right): the four-step decoder
    reports -1 exactly on the step into the detent, the two-step decoder
    reports -1 exactly on the steps where A changes, and neither ever reports
    +1.
  */
  lemma ForwardStep(e: Encoder, k: int)
    requires e.lastA == Phase(k).0
    ensures ReadEncoder4(e, Phase(k + 1).0, Phase(k + 1).1).rotation == (if (k + 1) % 4 == 3 then -1 else 0)
    ensures ReadEncoder2(e, Phase(k + 1).0, Phase(k + 1).1).rotation == (if Phase(k).0 != Phase(k + 1).0 then -1 else 0)
  {
  }

  /** One step backwards (right to left): the same edges, the opposite sign. */
  lemma BackwardStep(e: Encoder, k: int)
    requires e.lastA == Phase(k + 1).0
    ensures ReadEncoder4(e, Phase(k).0, Phase(k).1).rotation == (if k % 4 == 0 then 1 else 0)
    ensures ReadEncoder2(e, Phase(k).0, Phase(k).1).rotation == (if Phase(k).0 != Phase(k + 1).0 then 1 else 0)
  {
  }

  /** Total rotation reported while the lines walk n steps forwards from phase k. */
  function WalkForward(four: bool, e: Encoder, k: int, n: nat): int
    decreases n
  {
    if n == 0 then 0
    else
      var d := Decode(four, e, Phase(k + 1).0, Phase(k + 1).1);
      d.rotation + WalkForward(four, d.enc, k + 1, n - 1)
  }

  /** Total rotation reported while the lines walk n steps backwards from phase k. */
  function WalkBackward(four: bool, e: Encoder, k: int, n: nat): int
    decreases n
  {
    if n == 0 then 0
    else
      var d := Decode(four, e, Phase(k - 1).0, Phase(k - 1).1);
      d.rotation + WalkBackward(four, d.enc, k - 1, n - 1)
  }

  /** Any four consecutive steps forwards report -1 once (four-step) or twice (two-step). */
  lemma OneCycleForward(four: bool, e: Encoder, k: int)
    requires e.lastA == Phase(k).0
    ensures WalkForward(four, e, k, 4) == (if four then -1 else -2)
  {
    var e1 := Decode(four, e, Phase(k + 1).0, Phase(k + 1).1).enc;
    var e2 := Decode(four, e1, Phase(k + 2).0, Phase(k + 2).1).enc;
    var e3 := Decode(four, e2, Phase(k + 3).0, Phase(k + 3).1).enc;
    ForwardStep(e, k);
    ForwardStep(e1, k + 1);
    ForwardStep(e2, k + 2);
    ForwardStep(e3, k + 3);
  }

  /** Any four consecutive steps backwards report +1 once (four-step) or twice (two-step). */
  lemma OneCycleBackward(four: bool, e: Encoder, k: int)
    requires e.lastA == Phase(k).0
    ensures WalkBackward(four, e, k, 4) == (if four then 1 else 2)
  {
    var e1 := Decode(four, e, Phase(k - 1).0, Phase(k - 1).1).enc;
    var e2 := Decode(four, e1, Phase(k - 2).0, Phase(k - 2).1).enc;
    var e3 := Decode(four, e2, Phase(k - 3).0, Phase(k - 3).1).enc;
    BackwardStep(e, k - 1);
    BackwardStep(e1, k - 2);
    BackwardStep(e2, k - 3);
    BackwardStep(e3, k - 4);
  }

  /** A walk of m + n steps is the walk of m steps followed by the walk of n from where it ended. */
  lemma {:induction false} WalkForwardAppend(four: bool, e: Encoder, k: int, m: nat, n: nat)
    requires e.lastA == Phase(k).0
    ensures WalkForward(four, e, k, m + n) ==
      WalkForward(four, e, k, m) + WalkForward(four, e.(lastA := Phase(k + m).0), k + m, n)
    decreases m
  {
    if m == 0 {
      assert e.(lastA := Phase(k).0) == e;
    } else {
      var d := Decode(four, e, Phase(k + 1).0, Phase(k + 1).1);
      assert m + n - 1 == (m - 1) + n;
      WalkForwardAppend(four, d.enc, k + 1, m - 1, n);
      assert d.enc.(lastA := Phase(k + m).0) == e.(lastA := Phase(k + m).0);
    }
  }

  lemma {:induction false} WalkBackwardAppend(four: bool, e: Encoder, k: int, m: nat, n: nat)
    requires e.lastA == Phase(k).0
    ensures WalkBackward(four, e, k, m + n) ==
      WalkBackward(four, e, k, m) + WalkBackward(four, e.(lastA := Phase(k - m).0), k - m, n)
    decreases m
  {
    if m == 0 {
      assert e.(lastA := Phase(k).0) == e;
    } else {
      var d := Decode(four, e, Phase(k - 1).0, Phase(k - 1).1);
      assert m + n - 1 == (m - 1) + n;
      WalkBackwardAppend(four, d.enc, k - 1, m - 1, n);
      assert d.enc.(lastA := Phase(k - m).0) == e.(lastA := Phase(k - m).0);
    }
  }

  lemma PhasePeriodic(k: int)
    ensures Phase(k + 4) == Phase(k) && Phase(k - 4) == Phase(k)
  {
    assert (k + 4) % 4 == k % 4;
    assert (k - 4) % 4 == k % 4;
  }

  /**
    Turning forwards through n full cycles: the four-step decoder reports -n in
    all and the two-step decoder -2n, from any starting phase.
  */
  lemma {:induction false} FullTurnsForward(four: bool, e: Encoder, k: int, n: nat)
    requires e.lastA == Phase(k).0
    ensures WalkForward(four, e, k, 4 * n) == -(if four then n else 2 * n)
    decreases n
  {
    if n > 0 {
      PhasePeriodic(k);
      assert 4 * n == 4 + 4 * (n - 1);
      WalkForwardAppend(four, e, k, 4, 4 * (n - 1));
      OneCycleForward(four, e, k);
      FullTurnsForward(four, e.(lastA := Phase(k + 4).0), k + 4, n - 1);
    }
  }

  /** Turning backwards through n full cycles: +n for the four-step decoder, +2n for the two-step one. */
  lemma {:induction false} FullTurnsBackward(four: bool, e: Encoder, k: int, n: nat)
    requires e.lastA == Phase(k).0
    ensures WalkBackward(four, e, k, 4 * n) == (if four then n else 2 * n)
    decreases n
  {
    if n > 0 {
      PhasePeriodic(k);
      assert 4 * n == 4 + 4 * (n - 1);
      WalkBackwardAppend(four, e, k, 4, 4 * (n - 1));
      OneCycleBackward(four, e, k);
      FullTurnsBackward(four, e.(lastA := Phase(k - 4).0), k - 4, n - 1);
    }
  }
}

=== FILE: scenario.dfy ===
/**
  A worked session on one four-step encoder (id 1, pin 7, two modes, rotation
  base 100, switch index 50), read through the whole model.
*/
module Scenario {
  import opened Signals
  import opened Multiplexer
  import opened CommonBus
  import opened FocusArbiter

  /** What the buses show for one poll: slot 0 is never read. */
  function Show(a: Level, b: Level, s: Level): seq<Reading>
  {
    [Reading(HIGH, HIGH, HIGH), Reading(a, b, s)]
  }

  /**
    A falls (nothing), rises with B HIGH (counter-clockwise in the code's
    convention: 101), the switch is pressed (mode 1, reported as 50 even with
    two modes), A falls again (nothing, focus kept), rises with B LOW
    (clockwise in mode 1: 102); after more than 500 ms of silence the next poll
    drops focus and the mode is back to 0.
  */
  lemma FourStepSession()
    ensures
      var b0 := RegisterAll(New(4, 5, 6, 1, 0, false), [Registration(1, 4, 7, 2, 100, 50)]);
      var p0 := ReadAll(b0, Show(LOW, HIGH, HIGH), 10, 10);
      var p1 := ReadAll(p0.bus, Show(HIGH, HIGH, HIGH), 20, 20);
      var p2 := ReadAll(p1.bus, Show(HIGH, HIGH, LOW), 30, 30);
      var p3 := ReadAll(p2.bus, Show(LOW, HIGH, HIGH), 40, 40);
      var p4 := ReadAll(p3.bus, Show(HIGH, LOW, HIGH), 50, 50);
      var p5 := ReadAll(p4.bus, Show(HIGH, HIGH, HIGH), 2000, 2000);
      && p0.index == 0 && !p0.bus.focused
      && p1.index == 101 && p1.bus.current == 1 && p1.bus.focused
      && p2.index == 50 && p2.bus.encoders[1].currentMode == 1
      && p3.index == 0 && p3.bus.current == 1
      && p4.index == 102 && p4.bus.chrono == 50
      && p5.index == 0 && p5.bus.current == 0 && !p5.bus.focused && p5.bus.encoders[1].currentMode == 0
  {
    var e := Encoders.Encoder(4, 7, 2, 100, 50, HIGH, 0);
    var b0 := RegisterAll(New(4, 5, 6, 1, 0, false), [Registration(1, 4, 7, 2, 100, 50)]);
    assert b0.encoders[1] == e && b0.timeLimit == 500 && b0.chrono == 0 && b0.current == 0;

    var p0 := ReadAll(b0, Show(LOW, HIGH, HIGH), 10, 10);
    var e0 := e.(lastA := LOW);
    assert p0.index == 0 && p0.bus == b0.(encoders := b0.encoders[1 := e0]) by {
      assert !TimedOut(b0, 10);
      var g0 := GetIndex(e, Reading(LOW, HIGH, HIGH));
      assert g0.index == 0 && g0.enc == e0;
    }

    var p1 := ReadAll(p0.bus, Show(HIGH, HIGH, HIGH), 20, 20);
    assert p1.index == 101 && p1.bus == p0.bus.(encoders := p0.bus.encoders[1 := e], current := 1, chrono := 20, focused := true) by {
      assert !TimedOut(p0.bus, 20);
      var g1 := GetIndex(e0, Reading(HIGH, HIGH, HIGH));
      assert g1.index == 101 && g1.enc == e;
    }

    var p2 := ReadAll(p1.bus, Show(HIGH, HIGH, LOW), 30, 30);
    var e2 := e.(currentMode := 1);
    assert p2.index == 50 && p2.bus == p1.bus.(encoders := p1.bus.encoders[1 := e2], chrono := 30) by {
      assert !TimedOut(p1.bus, 30);
      var g2 := GetIndex(e, Reading(HIGH, HIGH, LOW));
      assert g2.index == 50 && g2.enc == e2;
    }

    var p3 := ReadAll(p2.bus, Show(LOW, HIGH, HIGH), 40, 40);
    var e3 := e.(currentMode := 1, lastA := LOW);
    assert p3.index == 0 && p3.bus == p2.bus.(encoders := p2.bus.encoders[1 := e3]) by {
      assert !TimedOut(p2.bus, 40);
      var g3 := GetIndex(e2, Reading(LOW, HIGH, HIGH));
      assert g3.index == 0 && g3.enc == e3;
    }

    var p4 := ReadAll(p3.bus, Show(HIGH, LOW, HIGH), 50, 50);
    assert p4.index == 102 && p4.bus == p3.bus.(encoders := p3.bus.encoders[1 := e2], chrono := 50) by {
      assert !TimedOut(p3.bus, 50);
      var g4 := GetIndex(e3, Reading(HIGH, LOW, HIGH));
      assert g4.index == 102 && g4.enc == e2;
    }

    var p5 := ReadAll(p4.bus, Show(HIGH, HIGH, HIGH), 2000, 2000);
    var x1 := p4.bus.(encoders := p4.bus.encoders[1 := e], current := 0, focused := false);
    assert p5.index == 0 && p5.bus == x1 by {
      assert TimedOut(p4.bus, 2000);
      assert Expire(p4.bus, 2000) == x1;
      TimeoutRescans(p4.bus, Show(HIGH, HIGH, HIGH), 2000, 2000);
      var g5 := GetIndex(e, Reading(HIGH, HIGH, HIGH));
      assert g5.index == 0 && g5.enc == e;
      assert x1.(encoders := x1.encoders[1 := e]) == x1;
      assert Scan(x1, Show(HIGH, HIGH, HIGH), 2, 2000) == Poll(x1, 0, []);
    }
  }
}

=== FILE: signals.dfy ===
/**
  Line levels, optional results and the trace of pin writes used throughout the
  model of the common-bus encoder reader.
*/
module Signals {

  /** A digital line level as the Arduino core reports it: 0 (LOW) or 1 (HIGH). */
  type Level = x: int | 0 <= x <= 1

  const LOW: Level := 0
  const HIGH: Level := 1

  /** An optional result; `None` means the reads ran out first. */
  datatype Option<+T> = None | Some(value: T)

  /** One `digitalWrite(pin, level)` call. */
  datatype PinWrite = PinWrite(pin: int, level: Level)

  /** The two writes around one encoder read: its common pin to ground (select), then back high (release). */
  function Bracket(pin: int): seq<PinWrite>
  {
    [PinWrite(pin, LOW), PinWrite(pin, HIGH)]
  }
}
